=== FILE: README.md ===
# Submission lock template, modelled in Dafny

ODK Aggregate serialises changes to a form submission with a datastore task
lock. `SubmissionLockTemplate` wraps the datastore's "try to obtain / try to
release this named lock" calls in three pieces of logic, and this project
models all three:

- **Key derivation** (`LockKey`, with the Java pieces in `JavaLang`). The
  constructor rejects a null or empty instance id. It locks on
  `"submission|" + formId + "|" + Integer.toHexString(instanceId.hashCode() & 0xff)`,
  which maps the instances of a form into 256 buckets. `String.hashCode` is
  modelled with explicit 32-bit wrap-around. It is proved to agree with the
  documented polynomial on all 32 bits, so the bucket is that polynomial
  modulo 256. The bucket text reads back as the bucket. The key parses back
  into form text and bucket, so two keys are equal exactly when the form
  texts and the buckets are equal.
- **acquire / release** (`SubmissionLock`). Each runs a loop of at most
  `TRIES = 4` store calls. A refused call is followed by a sleep drawn below
  `maxBackoffMs`, which starts at 250 and doubles after every draw. The
  store, the random source and `Thread.sleep` are inputs: a script of
  `Round`s gives, per attempt, the store's answer, the 53-bit value behind
  `Random.nextDouble()`, and whether the sleep returns or throws a checked
  exception, a runtime exception or a `java.lang.Error`. An `Error` is not
  an `Exception`, so it passes both `catch` blocks and leaves either method
  unwrapped. `Retry` states the loop as a whole. `Acquire` and
  `Release` map its exit onto what each method does. `AcquireLoop` and
  `ReleaseLoop` are the two `for` loops as written, with their `break`s and
  `catch` blocks, and they are proved to compute `Acquire` and `Release`.
- **Lifetime of one template**. The lock id drawn at construction and the
  derived key go into every store call. The backoff is reset to 250 at the
  start of every call, so whatever an earlier call left in the field is
  never read (`StaleBackoffIgnored`).

The doc comments of `acquire` and `release` say "up to 5 times", while the
code makes at most 4 calls (`TRIES = 4`). The model follows the code.

A few consequences of the code worth knowing:

- The bucket is `Integer.toHexString` of a byte, so it is one digit for
  buckets below 16 (`OneDigitBucketExample`) and two digits otherwise.
- The loop sleeps after every refused call, the last one included, so a
  timed-out `acquire` makes 4 calls and 4 sleeps. Their bounds sum to the
  250 + 500 + 1000 + 2000 = 3750 budget in the comment at lines 38-40.
- In `release`, a runtime exception thrown by a sleep is wrapped and thrown,
  and a checked exception (an interrupt) ends the call quietly.

## Model

| member | source | states |
|---|---|---|
| JavaLang.Wrap32 | src/main/java/org/opendatakit/aggregate/parser/SubmissionLockTemplate.java:85 | narrowing to a Java `int` gives a value in the `int` range with the same low 32 bits as its input |
| JavaLang.HashCode | src/main/java/org/opendatakit/aggregate/parser/SubmissionLockTemplate.java:85 | `instanceId.hashCode()` is a Java `int`, built by `h = 31*h + c` over the characters with every step wrapped to 32 bits |
| JavaLang.HashCodeMatchesPolynomial | src/main/java/org/opendatakit/aggregate/parser/SubmissionLockTemplate.java:85 | `hashCode` computed with 32-bit wrap-around agrees with the documented sum s[i]*31^(n-1-i) modulo 2^32, for every string |
| JavaLang.HashLowByte | src/main/java/org/opendatakit/aggregate/parser/SubmissionLockTemplate.java:85 | `hashCode() & 0xff` equals the documented hash polynomial modulo 256, so the wrap-around never changes the bucket |
| JavaLang.LowByte | src/main/java/org/opendatakit/aggregate/parser/SubmissionLockTemplate.java:85 | `& 0xff` gives a value in 0..255 equal to the low byte of the 32-bit pattern |
| JavaLang.ToHexString | src/main/java/org/opendatakit/aggregate/parser/SubmissionLockTemplate.java:85 | `Integer.toHexString` output is non-empty lower-case hex, starts with '0' only for zero, and has the fewest digits that can hold the value |
| LockKey.HexRoundTrip | src/main/java/org/opendatakit/aggregate/parser/SubmissionLockTemplate.java:85 | parsing the hex text of n gives back n |
| LockKey.ParseHexCanonical | src/main/java/org/opendatakit/aggregate/parser/SubmissionLockTemplate.java:85 | every text the hex parser accepts is exactly `Integer.toHexString` of its value (no leading zero), so a parsed bucket text has one spelling |
| LockKey.ToHexStringInjective | src/main/java/org/opendatakit/aggregate/parser/SubmissionLockTemplate.java:85 | two numbers have the same hex text exactly when they are equal |
| JavaLang.ByteHexLength | src/main/java/org/opendatakit/aggregate/parser/SubmissionLockTemplate.java:85 | a byte prints as one digit exactly when it is below 16, and as two digits exactly when it is 16 or more |
| LockKey.FormTextCollides | src/main/java/org/opendatakit/aggregate/parser/SubmissionLockTemplate.java:85 | two form ids print alike in the key exactly when they are equal, or one is null and the other is the text "null" |
| LockKey.Bucket | src/main/java/org/opendatakit/aggregate/parser/SubmissionLockTemplate.java:72-85 | an instance id falls in one of 256 buckets, namely its hash polynomial modulo 256 |
| LockKey.BucketText | src/main/java/org/opendatakit/aggregate/parser/SubmissionLockTemplate.java:85 | the bucket text is 1 or 2 lower-case hex digits, one digit exactly for buckets below 16, no leading zero, and reads back as the bucket |
| LockKey.DeriveKey | src/main/java/org/opendatakit/aggregate/parser/SubmissionLockTemplate.java:85 | the key parses back into the form text and the instance id's bucket |
| LockKey.DeriveKeyInjective | src/main/java/org/opendatakit/aggregate/parser/SubmissionLockTemplate.java:72-85 | two keys are equal exactly when their form texts are equal and their instance ids share a bucket |
| LockKey.NullFormIdReadsAsNull | src/main/java/org/opendatakit/aggregate/parser/SubmissionLockTemplate.java:85 | a null form id is concatenated as the text "null", so it shares keys with a form named "null" |
| LockKey.OneDigitBucketExample | src/main/java/org/opendatakit/aggregate/parser/SubmissionLockTemplate.java:85 | instance id "aA" hashes to bucket 0, and its key ends in the single digit "0" |
| SubmissionLock.NewTemplate | src/main/java/org/opendatakit/aggregate/parser/SubmissionLockTemplate.java:81-93 | construction fails with an illegal argument exactly when the instance id is null or empty. Otherwise it keeps the given lock id, sets the backoff to 250, and uses the key `DeriveKey` gives for (formId, instanceId) |
| SubmissionLock.NextBackoff | src/main/java/org/opendatakit/aggregate/parser/SubmissionLockTemplate.java:151-155 | a drawn backoff lies in [0, maxBackoffMs) |
| SubmissionLock.BoundDoubles | src/main/java/org/opendatakit/aggregate/parser/SubmissionLockTemplate.java:104-153 | the `maxBackoffMs` in force at sleep i starts at 250 on entry to `acquire` or `release` and doubles after every draw |
| SubmissionLock.Retry | src/main/java/org/opendatakit/aggregate/parser/SubmissionLockTemplate.java:104-118 | the loop makes 1 to 4 store calls, all with the template's lock id and key and the MODIFICATION type. It sleeps once per call except after a success. Sleep i is below 250*2^i. Each kind of exit implies the script that causes it |
| SubmissionLock.Acquire | src/main/java/org/opendatakit/aggregate/parser/SubmissionLockTemplate.java:101-123 | `acquire` returns iff the store grants before any sleep throws. It times out with its lock id and key iff all 4 calls are refused and every sleep returns. It throws a wrapped exception of kind X iff a sleep throws a checked or runtime exception X first, and lets a `java.lang.Error` through unwrapped iff a sleep throws one first. Afterwards the backoff field is 250*2^(number of sleeps) |
| SubmissionLock.Release | src/main/java/org/opendatakit/aggregate/parser/SubmissionLockTemplate.java:131-149 | `release` throws a lock exception iff a sleep throws a runtime exception before any success, and that exception is then the wrapped runtime exception. A `java.lang.Error` from a sleep propagates unwrapped iff a sleep throws one first. Store refusals never cause an error |
| SubmissionLock.AcquireLoop | src/main/java/org/opendatakit/aggregate/parser/SubmissionLockTemplate.java:101-123 | the `for` loop with its `acquired` flag, `break` and `catch` blocks computes exactly `Acquire` |
| SubmissionLock.ReleaseLoop | src/main/java/org/opendatakit/aggregate/parser/SubmissionLockTemplate.java:131-149 | the `for` loop with its `break`s and its two `catch` blocks computes exactly `Release` |
| SubmissionLock.AcquireGrantedOnAttempt | src/main/java/org/opendatakit/aggregate/parser/SubmissionLockTemplate.java:105-108 | if the store first grants on attempt k (0-based), `acquire` returns after exactly k+1 calls and k sleeps |
| SubmissionLock.AcquireTimesOut | src/main/java/org/opendatakit/aggregate/parser/SubmissionLockTemplate.java:105-122 | after 4 refusals, `acquire` has made exactly 4 calls and 4 sleeps, with bounds 250, 500, 1000 and 2000. It then times out with its lock id and key, and no fifth call is made |
| SubmissionLock.AcquireSleepFails | src/main/java/org/opendatakit/aggregate/parser/SubmissionLockTemplate.java:110-116 | a sleep throwing after refusal k ends `acquire` after k+1 calls with no further attempt. A checked or runtime exception is thrown wrapped, and a `java.lang.Error` propagates unwrapped |
| SubmissionLock.ReleaseGrantedOnAttempt | src/main/java/org/opendatakit/aggregate/parser/SubmissionLockTemplate.java:134-136 | `release` stops at the store's first success, after k+1 calls and k sleeps |
| SubmissionLock.ReleaseGivesUp | src/main/java/org/opendatakit/aggregate/parser/SubmissionLockTemplate.java:125-148 | after 4 refusals, `release` returns normally having made 4 calls and 4 sleeps |
| SubmissionLock.ReleaseSleepFails | src/main/java/org/opendatakit/aggregate/parser/SubmissionLockTemplate.java:138-146 | a sleep throwing after refusal k ends `release` after k+1 calls. It returns normally for a checked exception, throws a wrapped exception for a runtime one, and lets a `java.lang.Error` through unwrapped |
| SubmissionLock.StaleBackoffIgnored | src/main/java/org/opendatakit/aggregate/parser/SubmissionLockTemplate.java:101-149 | `acquire` and `release` behave the same whatever backoff value the template held before the call |
| SubmissionLock.BoundTotalClosedForm | src/main/java/org/opendatakit/aggregate/parser/SubmissionLockTemplate.java:38-42 | the first n backoff bounds sum to 250*(2^n - 1), so the 4 bounds sum to 3750 |
| SubmissionLock.NapsWithinBoundTotal | src/main/java/org/opendatakit/aggregate/parser/SubmissionLockTemplate.java:151-155 | sleeps each below their doubling bound total at most the bounds' sum minus one per sleep |
| SubmissionLock.SleepBudget | src/main/java/org/opendatakit/aggregate/parser/SubmissionLockTemplate.java:38-40 | whatever the store and random source do, one `acquire` or one `release` sleeps less than 3750 ms in total |
| SubmissionLock.TemplateKeepsIdentity | src/main/java/org/opendatakit/aggregate/parser/SubmissionLockTemplate.java:90-136 | across an `acquire` and a later `release`, every store call carries the lock id fixed at construction, the key derived from (formId, instanceId) and the MODIFICATION type. The release restarts its backoff at 250 |

## Left out

- `WorksheetCreatorImpl` fetches a submission, checks request parameters and hands a `Runnable` to a thread pool. It contains no lock logic.
- The datastore and its `TaskLock`: mutual exclusion between holders, and expiry after 66000 ms (kept only as the constant `ModificationExpiryMillis`). Each store answer is a scripted input.
- Exceptions thrown by `obtainLock`, `releaseLock`, `createTaskLock` or `CallingContext` propagate unchanged in the source. The model treats every store call as answering true or false.
- `UUID.randomUUID()`: the lock id is a constructor parameter.
- SubmissionLock.NextBackoff: computes the exact floor of k*2^-53*maxBackoffMs. The source multiplies in double precision, and that rounding is not modelled.
- The `Random` instance is shared by all calls of a template. The model gives each call its own script of draws, and any draw values are allowed.
- `Thread.sleep` elapsed time: only the requested durations and the exception kind of each sleep are modelled.
- JavaLang.HashCode: a Dafny `char` is a Unicode scalar value. Java hashes UTF-16 code units, so characters above U+FFFF (two units in Java) are folded as one value. A Java `String` may also hold an unpaired surrogate unit, which a Dafny `string` cannot, so such instance ids have no counterpart in the model. Every other character hashes as in Java.
- JavaLang.ToHexString: defined only for non-negative values. The source calls it only on a masked byte, never on a negative int.
- The text of exception messages: a timeout carries the lock id and the key, and a wrapped exception carries the kind of its cause.
- Thread safety: a template is single-owner, so the model is sequential.
- Two templates contending for one key: whether the second is refused while the first holds the lock depends on the store's single-holder rule, which is outside this model.

=== FILE: java_lang.dfy ===
/**
 The slice of the Java platform the submission lock depends on, stated with
 unbounded integers: nullable references, 32-bit `int` wrap-around,
 `String.hashCode`, `& 0xff` and `Integer.toHexString`.
 */
module JavaLang {

  /** A Java reference that may be `null`. */
  datatype Nullable<+T> = Null | Ref(value: T)

  const TwoTo31: int := 0x8000_0000
  const TwoTo32: int := 0x1_0000_0000

  predicate IsInt32(x: int) {
    -TwoTo31 <= x < TwoTo31
  }

  function Pow(b: nat, e: nat): nat {
    if e == 0 then 1 else b * Pow(b, e - 1)
  }

  /** Adding whole multiples of 2^32 does not change a value modulo 2^32. */
  lemma ModAddMultiple32(x: int, k: int)
    ensures (x + k * TwoTo32) % TwoTo32 == x % TwoTo32
  {
  }

  /**
   Narrowing of an exact integer to a Java `int`: the two's complement value
   whose bit pattern agrees with `x` modulo 2^32.
   */
  function Wrap32(x: int): (r: int)
    ensures IsInt32(r)
    ensures r % TwoTo32 == x % TwoTo32
  {
    var u := x % TwoTo32;
    if u < TwoTo31 then u else (ModAddMultiple32(u, -1); u - TwoTo32)
  }

  /** The value `String.hashCode` folds in for one character. */
  function CharCode(c: char): nat {
    c as nat
  }

  /**
   `String.hashCode` as the JDK computes it: `h = 31 * h + c` over the
   characters from first to last, each step wrapped to a Java `int`.
   */
  function HashCode(s: string): (h: int)
    ensures IsInt32(h)
  {
    if |s| == 0 then 0
    else Wrap32(31 * HashCode(s[..|s| - 1]) + CharCode(s[|s| - 1]))
  }

  /** The documented value of `String.hashCode`, sum of s[i] * 31^(n-1-i), without wrap-around. */
  function Polynomial(s: string): nat {
    if |s| == 0 then 0
    else CharCode(s[0]) * Pow(31, |s| - 1) + Polynomial(s[1..])
  }

  lemma {:induction false} PolynomialAppend(s: string, c: char)
    ensures Polynomial(s + [c]) == 31 * Polynomial(s) + CharCode(c)
  {
    if |s| == 0 {
      assert s + [c] == [c];
    } else {
      var t := s[1..];
      assert (s + [c])[1..] == t + [c];
      PolynomialAppend(t, c);
      var a := CharCode(s[0]);
      assert Pow(31, |s|) == 31 * Pow(31, |s| - 1);
      calc {
        Polynomial(s + [c]);
        a * Pow(31, |s|) + Polynomial(t + [c]);
        a * (31 * Pow(31, |s| - 1)) + 31 * Polynomial(t) + CharCode(c);
        { assert a * (31 * Pow(31, |s| - 1)) == 31 * (a * Pow(31, |s| - 1)); }
        31 * (a * Pow(31, |s| - 1) + Polynomial(t)) + CharCode(c);
      }
    }
  }

  /** One hash step keeps agreement modulo 2^32 whatever the accumulator's representative. */
  lemma {:induction false} ModStep(a: int, b: int, c: int)
    requires a % TwoTo32 == b % TwoTo32
    ensures (31 * a + c) % TwoTo32 == (31 * b + c) % TwoTo32
  {
    var qa, qb, r := a / TwoTo32, b / TwoTo32, a % TwoTo32;
    assert a == qa * TwoTo32 + r && b == qb * TwoTo32 + r;
    assert 31 * a + c == (31 * r + c) + (31 * qa) * TwoTo32;
    assert 31 * b + c == (31 * r + c) + (31 * qb) * TwoTo32;
    ModAddMultiple32(31 * r + c, 31 * qa);
    ModAddMultiple32(31 * r + c, 31 * qb);
  }

  /** The wrapped hash and the documented polynomial agree on all 32 bits. */
  lemma {:induction false} HashCodeMatchesPolynomial(s: string)
    ensures HashCode(s) % TwoTo32 == Polynomial(s) % TwoTo32
  {
    if |s| > 0 {
      var p, c := s[..|s| - 1], s[|s| - 1];
      assert s == p + [c];
      HashCodeMatchesPolynomial(p);
      PolynomialAppend(p, c);
      ModStep(HashCode(p), Polynomial(p), CharCode(c));
    }
  }

  /** Reducing modulo 2^32 first does not change the low byte. */
  lemma ModOfMod256(x: int)
    ensures (x % TwoTo32) % 256 == x % 256
  {
  }

  /**
   `h & 0xff` on a Java `int`: Dafny's `%` is Euclidean, so on the two's
   complement value it yields exactly the low eight bits.
   */
  function LowByte(h: int): (b: nat)
    ensures b < 256
    ensures b == (h % TwoTo32) % 256
  {
    ModOfMod256(h);
    h % 256
  }

  /** `String.hashCode() & 0xff` is the documented polynomial reduced modulo 256. */
  lemma HashLowByte(s: string)
    ensures LowByte(HashCode(s)) == Polynomial(s) % 256
  {
    HashCodeMatchesPolynomial(s);
    ModOfMod256(Polynomial(s));
  }

  const HexAlphabet: string := "0123456789abcdef"

  predicate IsHexDigit(c: char) {
    c in HexAlphabet
  }

  /**
   `Integer.toHexString` on a non-negative `int`: lower-case digits, no
   leading zero, and "0" for zero.
   */
  function ToHexString(n: nat): (r: string)
    ensures 1 <= |r|
    ensures forall i :: 0 <= i < |r| ==> IsHexDigit(r[i])
    ensures r[0] == '0' <==> n == 0
    ensures n < Pow(16, |r|)
    ensures n == 0 || Pow(16, |r| - 1) <= n
  {
    if n < 16 then [HexAlphabet[n]]
    else ToHexString(n / 16) + [HexAlphabet[n % 16]]
  }

  /** A byte prints as one digit below 16 and as two digits from 16 to 255. */
  lemma ByteHexLength(b: nat)
    requires b < 256
    ensures |ToHexString(b)| == 1 <==> b < 16
    ensures |ToHexString(b)| == 2 <==> 16 <= b
  {
  }
}

=== FILE: lock_key.dfy ===
/**
 The resource key a submission lock is taken on: the form identifier plus
 one of 256 buckets chosen from the instance identifier's hash, so that
 instances of one form share a bounded number of lock rows.
 */
module LockKey {
  import opened JavaLang

  /** Outcome of parsing text that may not be well formed. */
  datatype Option<+T> = None | Some(value: T)

  const Namespace: string := "submission"
  const Separator: char := '|'

  /** The text that starts every submission lock key. */
  const Prefix: string := Namespace + [Separator]

  /** What string concatenation renders for a possibly-null form identifier. */
  function FormText(formId: Nullable<string>): (s: string)
    ensures formId.Null? ==> s == "null"
    ensures formId.Ref? ==> s == formId.value
  {
    match formId
    case Null => "null"
    case Ref(s) => s
  }

  /** The value of one lower-case hex digit. */
  function DigitValue(c: char): (d: nat)
    requires IsHexDigit(c)
    ensures d < 16 && HexAlphabet[d] == c
  {
    if '0' <= c <= '9' then c as nat - '0' as nat else c as nat - 'a' as nat + 10
  }

  lemma DigitValueInverse(d: nat)
    requires d < 16
    ensures IsHexDigit(HexAlphabet[d]) && DigitValue(HexAlphabet[d]) == d
  {
  }

  /** The value of non-empty lower-case hexadecimal digits, leading zeros allowed. */
  function ParseDigits(s: string): Option<nat> {
    if |s| == 0 then None
    else if |s| == 1 then
      if IsHexDigit(s[0]) then Some(DigitValue(s[0])) else None
    else
      match ParseDigits(s[..|s| - 1])
      case None => None
      case Some(v) =>
        if IsHexDigit(s[|s| - 1]) then Some(16 * v + DigitValue(s[|s| - 1])) else None
  }

  /**
   Reads lower-case hexadecimal text back into a number, accepting only the
   form `Integer.toHexString` prints: no leading zero unless the text is "0".
   */
  function ParseHex(s: string): Option<nat> {
    if 2 <= |s| && s[0] == '0' then None else ParseDigits(s)
  }

  lemma {:induction false} DigitsRoundTrip(n: nat)
    ensures ParseDigits(ToHexString(n)) == Some(n)
  {
    if n < 16 {
      DigitValueInverse(n);
    } else {
      var p, d := ToHexString(n / 16), HexAlphabet[n % 16];
      var s := p + [d];
      assert ToHexString(n) == s;
      assert s[..|s| - 1] == p && s[|s| - 1] == d;
      DigitsRoundTrip(n / 16);
      DigitValueInverse(n % 16);
    }
  }

  lemma HexRoundTrip(n: nat)
    ensures ParseHex(ToHexString(n)) == Some(n)
  {
    DigitsRoundTrip(n);
  }

  /** Every text `ParseHex` accepts is exactly what `Integer.toHexString` prints for its value. */
  lemma {:induction false} ParseHexCanonical(s: string, n: nat)
    requires ParseHex(s) == Some(n)
    ensures ToHexString(n) == s
  {
    if |s| == 1 {
      assert n == DigitValue(s[0]) && HexAlphabet[n] == s[0];
      assert ToHexString(n) == [s[0]] == s;
    } else {
      var p, c := s[..|s| - 1], s[|s| - 1];
      ParseHexLast(s);
      var v, d := ParseHex(p).value, DigitValue(c);
      assert n == 16 * v + d && HexAlphabet[d] == c;
      ParseHexCanonical(p, v);
      assert v != 0;
      ToHexStringLast(v, d);
      assert ToHexString(n) == p + [c];
      SplitLast(s);
    }
  }

  /** Accepted text of two or more digits is accepted text followed by one more digit. */
  lemma ParseHexLast(s: string)
    requires 2 <= |s| && ParseHex(s).Some?
    ensures var p := s[..|s| - 1];
      && ParseHex(p).Some? && p[0] != '0' && IsHexDigit(s[|s| - 1])
      && ParseHex(s).value == 16 * ParseHex(p).value + DigitValue(s[|s| - 1])
  {
    assert s[..|s| - 1][0] == s[0];
  }

  lemma ToHexStringLast(v: nat, d: nat)
    requires 0 < v && d < 16
    ensures ToHexString(16 * v + d) == ToHexString(v) + [HexAlphabet[d]]
  {
    DivMod16(v, d);
  }

  lemma SplitLast(s: string)
    requires |s| > 0
    ensures s == s[..|s| - 1] + [s[|s| - 1]]
  {
  }

  lemma DivMod16(v: nat, d: nat)
    requires d < 16
    ensures (16 * v + d) / 16 == v && (16 * v + d) % 16 == d
  {
  }

  /** Distinct numbers print as distinct text. */
  lemma ToHexStringInjective(m: nat, n: nat)
    ensures ToHexString(m) == ToHexString(n) <==> m == n
  {
    HexRoundTrip(m);
    HexRoundTrip(n);
  }

  /** `instanceId.hashCode() & 0xff`: the documented hash polynomial reduced modulo 256. */
  function Bucket(instanceId: string): (b: nat)
    ensures b < 256
    ensures b == Polynomial(instanceId) % 256
  {
    HashLowByte(instanceId);
    LowByte(HashCode(instanceId))
  }

  /**
   `Integer.toHexString` of the bucket: one or two lower-case hex digits,
   never a leading zero, reading back as the bucket.
   */
  function BucketText(instanceId: string): (t: string)
    ensures 1 <= |t| <= 2
    ensures forall i :: 0 <= i < |t| ==> IsHexDigit(t[i])
    ensures |t| == 1 <==> Bucket(instanceId) < 16
    ensures |t| == 2 ==> t[0] != '0'
    ensures ParseHex(t) == Some(Bucket(instanceId))
  {
    ByteHexLength(Bucket(instanceId));
    HexRoundTrip(Bucket(instanceId));
    ToHexString(Bucket(instanceId))
  }

  /** The two components a key is derived from. */
  datatype KeyParts = KeyParts(form: string, bucket: nat)

  /** `"submission|" + formId + "|" + Integer.toHexString(instanceId.hashCode() & 0xff)`. */
  function DeriveKey(formId: Nullable<string>, instanceId: string): (k: string)
    ensures ParseKey(k) == Some(KeyParts(FormText(formId), Bucket(instanceId)))
  {
    var f, t := FormText(formId), BucketText(instanceId);
    var k := Prefix + f + [Separator] + t;
    assert k[..|Prefix|] == Prefix;
    assert k[|Prefix|..] == f + [Separator] + t;
    LastIndexOfBeforeSuffix(f, Separator, t);
    assert (f + [Separator] + t)[..|f|] == f;
    assert (f + [Separator] + t)[|f| + 1..] == t;
    k
  }

  function LastIndexOf(s: string, c: char): (r: Option<nat>)
    ensures r.Some? ==> r.value < |s| && s[r.value] == c
    ensures r.Some? ==> forall j :: r.value < j < |s| ==> s[j] != c
    ensures r.None? <==> c !in s
  {
    if |s| == 0 then None
    else if s[|s| - 1] == c then Some(|s| - 1)
    else
      assert s == s[..|s| - 1] + [s[|s| - 1]];
      LastIndexOf(s[..|s| - 1], c)
  }

  lemma {:induction false} LastIndexOfBeforeSuffix(a: string, c: char, t: string)
    requires c !in t
    ensures LastIndexOf(a + [c] + t, c) == Some(|a|)
  {
    var s := a + [c] + t;
    if |t| == 0 {
      assert s[|s| - 1] == c;
    } else {
      var t' := t[..|t| - 1];
      assert t[|t| - 1] in t;
      assert s[..|s| - 1] == a + [c] + t';
      assert c !in t' by {
        assert forall x :: x in t' ==> x in t;
      }
      LastIndexOfBeforeSuffix(a, c, t');
    }
  }

  /**
   Splits a key back into form text and bucket. The bucket text follows the
   last separator, since hex digits never contain one; the form text may.
   */
  function ParseKey(k: string): Option<KeyParts> {
    if |k| < |Prefix| || k[..|Prefix|] != Prefix then None
    else
      var rest := k[|Prefix|..];
      match LastIndexOf(rest, Separator)
      case None => None
      case Some(i) =>
        match ParseHex(rest[i + 1..])
        case None => None
        case Some(b) => Some(KeyParts(rest[..i], b))
  }

  /**
   Two derivations give the same key exactly when the form texts agree and
   the instance identifiers fall in the same bucket.
   */
  lemma DeriveKeyInjective(f1: Nullable<string>, i1: string, f2: Nullable<string>, i2: string)
    ensures DeriveKey(f1, i1) == DeriveKey(f2, i2)
        <==> FormText(f1) == FormText(f2) && Bucket(i1) == Bucket(i2)
  {
  }

  /** A null form identifier shares its keys with the form literally named "null". */
  lemma NullFormIdReadsAsNull(i: string)
    ensures DeriveKey(Null, i) == DeriveKey(Ref("null"), i)
  {
  }

  /** An instance identifier whose bucket is below 16 yields a one-digit bucket text. */
  lemma OneDigitBucketExample()
    ensures Bucket("aA") == 0
    ensures DeriveKey(Ref("f"), "aA") == "submission|f|0"
  {
    HashOfaA();
    assert Bucket("aA") == 0;
    assert BucketText("aA") == "0";
    assert DeriveKey(Ref("f"), "aA") == Prefix + "f" + [Separator] + "0";
  }

  /** Java's `"aA".hashCode()`: 97 * 31 + 65. */
  lemma HashOfaA()
    ensures HashCode("aA") == 3072
  {
    assert "aA"[..1] == "a" && "a"[..0] == "";
    assert HashCode("a") == 97;
  }

  /**
   Two form identifiers render alike exactly when they are equal, or when
   one is null and the other is the text "null".
   */
  lemma FormTextCollides(f1: Nullable<string>, f2: Nullable<string>)
    ensures FormText(f1) == FormText(f2)
        <==> f1 == f2 || (f1 == Null && f2 == Ref("null")) || (f1 == Ref("null") && f2 == Null)
  {
  }
}

=== FILE: submission_lock.dfy ===
/**
 A submission lock template: a lock key and a lock id fixed at construction,
 and `acquire`/`release`, each a bounded loop of store calls separated by
 randomised, doubling backoff sleeps.

 The lock store and the sleep/random primitives are inputs. A call is run
 against a script of `Round`s, one per attempt: the store's answer, the
 random draw, and what the sleep after a refusal does.
 */
module SubmissionLock {
  import opened JavaLang
  import opened LockKey

  /** Store calls per `acquire` or `release`. */
  const Tries: nat := 4

  /** Exclusive upper bound, in ms, of the first backoff of each call. */
  const InitialMaxBackoff: nat := 250

  /** The one lock type, `MODIFICATION`; the store expires it after 66000 ms. */
  datatype LockType = Modification

  const ModificationExpiryMillis: nat := 66000

  /** The state of one template: its derived key, its lock id and the backoff field. */
  datatype Template = Template(key: string, lockId: string, maxBackoff: nat)

  datatype Construction = Constructed(template: Template) | IllegalArgument(message: string)

  /**
   The constructor. `lockId` stands for the random UUID text drawn once per
   template; every later store call presents it.
   */
  function NewTemplate(formId: Nullable<string>, instanceId: Nullable<string>, lockId: string): (r: Construction)
    ensures r.IllegalArgument? <==> instanceId == Null || instanceId.value == ""
    ensures r.Constructed? ==> r.template.key == DeriveKey(formId, instanceId.value)
    ensures r.Constructed? ==> r.template.lockId == lockId && r.template.maxBackoff == InitialMaxBackoff
  {
    match instanceId
    case Null => IllegalArgument("instanceId cannot be null or blank")
    case Ref(id) =>
      if |id| == 0 then IllegalArgument("instanceId cannot be null or blank")
      else Constructed(Template(DeriveKey(formId, id), lockId, InitialMaxBackoff))
  }

  // ----- The environment of one call -----

  /**
   What `Thread.sleep` can throw: a checked exception such as an interrupt,
   a `RuntimeException`, or a `java.lang.Error`, which is a `Throwable` but
   not an `Exception`, so neither `catch` block of either method catches it.
   */
  datatype ExceptionKind = Checked | Unchecked | JavaError

  /** What one `Thread.sleep` does: return, or throw. */
  datatype SleepResult = Completes | Throws(kind: ExceptionKind)

  const FractionScale: nat := 0x20_0000_0000_0000

  /** `Random.nextDouble()` returns k * 2^-53 for some 0 <= k < 2^53; a `Fraction` is that k. */
  type Fraction = k: nat | k < FractionScale

  /** One attempt: the store's answer, the random draw and the sleep's behaviour. */
  datatype Round = Round(granted: bool, fraction: Fraction, sleep: SleepResult)

  /** `(long) (rand.nextDouble() * maxBackoffMs)`, taking the product exactly. */
  function NextBackoff(f: Fraction, maxBackoff: nat): (ms: nat)
    ensures ms <= maxBackoff
    ensures 0 < maxBackoff ==> ms < maxBackoff
  {
    MulMonotone(f, FractionScale - 1, maxBackoff);
    f * maxBackoff / FractionScale
  }

  lemma MulMonotone(a: nat, b: nat, m: nat)
    requires a <= b
    ensures a * m <= b * m
  {
  }

  /** The `maxBackoffMs` in force at the i-th sleep of a call (0-based). */
  function Bound(i: nat): nat {
    InitialMaxBackoff * Pow(2, i)
  }

  /**
   The closed form agrees with the field's history: reset to
   `InitialMaxBackoff`, then doubled by every draw.
   */
  lemma BoundDoubles(i: nat)
    ensures Bound(0) == InitialMaxBackoff
    ensures Bound(i + 1) == 2 * Bound(i)
  {
  }

  /** A round ends the loop: the store said yes, or the sleep after its refusal threw. */
  predicate EndsLoop(r: Round) {
    r.granted || r.sleep.Throws?
  }

  /** The first k attempts were all refused and all their sleeps returned. */
  predicate RefusedAndSlept(rounds: seq<Round>, k: nat)
    requires k <= |rounds|
  {
    forall j :: 0 <= j < k ==> !EndsLoop(rounds[j])
  }

  /** The store first says yes on attempt k (0-based). */
  predicate GrantedOnAttempt(rounds: seq<Round>, k: nat) {
    k < Tries && k < |rounds| && RefusedAndSlept(rounds, k) && rounds[k].granted
  }

  /** Attempt k (0-based) is refused and the sleep after it throws. */
  predicate SleepFailsOnAttempt(rounds: seq<Round>, k: nat) {
    k < Tries && k < |rounds| && RefusedAndSlept(rounds, k)
    && !rounds[k].granted && rounds[k].sleep.Throws?
  }

  /** Every attempt is refused and every sleep returns. */
  predicate AlwaysRefused(rounds: seq<Round>) {
    Tries <= |rounds| && RefusedAndSlept(rounds, Tries)
  }

  /** The attempt at which the loop stops early, or `Tries` when it runs out. */
  function StopIndex(rounds: seq<Round>, from: nat): (k: nat)
    requires from <= Tries <= |rounds|
    ensures from <= k <= Tries
    ensures forall j :: from <= j < k ==> !EndsLoop(rounds[j])
    ensures k < Tries ==> EndsLoop(rounds[k])
    decreases Tries - from
  {
    if from == Tries || EndsLoop(rounds[from]) then from else StopIndex(rounds, from + 1)
  }

  // ----- The shared retry loop -----

  datatype StoreOp = ObtainLock | ReleaseLock

  /** One call to `obtainLock` or `releaseLock` with its arguments. */
  datatype StoreCall = StoreCall(op: StoreOp, lockId: string, key: string, lockType: LockType)

  /** One `Thread.sleep(ms)`, with the `maxBackoffMs` its duration was drawn under. */
  datatype Nap = Nap(millis: nat, bound: nat)

  /** How the loop ended: the store said yes, a sleep threw, or all attempts were used. */
  datatype Exit = Succeeded | SleepThrew(kind: ExceptionKind) | Exhausted

  datatype Attempts = Attempts(exit: Exit, calls: seq<StoreCall>, naps: seq<Nap>)

  function Calls(op: StoreOp, t: Template, n: nat): seq<StoreCall> {
    seq(n, _ => StoreCall(op, t.lockId, t.key, Modification))
  }

  function Naps(rounds: seq<Round>, n: nat): seq<Nap>
    requires n <= |rounds|
  {
    seq(n, i requires 0 <= i < n => Nap(NextBackoff(rounds[i].fraction, Bound(i)), Bound(i)))
  }

  /**
   The loop both `acquire` and `release` run, stated as a whole: it stops
   at the first round that ends it, and a call and a sleep happen for each
   round up to there. Both methods set `maxBackoffMs` back to
   `InitialMaxBackoff` on entry, so the bounds start from `Bound(0)` and
   `t.maxBackoff` is never read.
   */
  function Retry(op: StoreOp, t: Template, rounds: seq<Round>): (a: Attempts)
    requires Tries <= |rounds|
    ensures 1 <= |a.calls| <= Tries
    ensures forall i :: 0 <= i < |a.calls| ==> a.calls[i] == StoreCall(op, t.lockId, t.key, Modification)
    ensures |a.naps| == if a.exit.Succeeded? then |a.calls| - 1 else |a.calls|
    ensures forall i :: 0 <= i < |a.naps| ==> a.naps[i].bound == Bound(i) && a.naps[i].millis < Bound(i)
    ensures a.exit.Succeeded? ==> GrantedOnAttempt(rounds, |a.calls| - 1)
    ensures a.exit.SleepThrew? ==>
              SleepFailsOnAttempt(rounds, |a.calls| - 1) && rounds[|a.calls| - 1].sleep.kind == a.exit.kind
    ensures a.exit.Exhausted? ==> AlwaysRefused(rounds)
  {
    var k := StopIndex(rounds, 0);
    if k == Tries then
      Attempts(Exhausted, Calls(op, t, Tries), Naps(rounds, Tries))
    else if rounds[k].granted then
      Attempts(Succeeded, Calls(op, t, k + 1), Naps(rounds, k))
    else
      Attempts(SleepThrew(rounds[k].sleep.kind), Calls(op, t, k + 1), Naps(rounds, k + 1))
  }

  // ----- acquire and release -----

  datatype LockError = TimedOut(lockId: string, key: string) | Wrapped(cause: ExceptionKind)

  /**
   How a call leaves: normally, by throwing a lock exception, or with the
   `Error` a sleep threw passing through unwrapped.
   */
  datatype Outcome = Returned | Raised(error: LockError) | ErrorEscaped

  datatype Run = Run(outcome: Outcome, calls: seq<StoreCall>, naps: seq<Nap>, after: Template)

  /**
   `acquire`: returns once the store grants the lock, times out after
   `Tries` refusals, wraps any exception a sleep throws and lets an `Error`
   through.
   */
  function Acquire(t: Template, rounds: seq<Round>): (r: Run)
    requires Tries <= |rounds|
    ensures r.outcome == Returned <==> exists k: nat :: GrantedOnAttempt(rounds, k)
    ensures r.outcome == Raised(TimedOut(t.lockId, t.key)) <==> AlwaysRefused(rounds)
    ensures forall kind :: kind != JavaError ==>
              (r.outcome == Raised(Wrapped(kind)) <==>
               exists k: nat :: SleepFailsOnAttempt(rounds, k) && rounds[k].sleep.kind == kind)
    ensures r.outcome == ErrorEscaped <==>
              exists k: nat :: SleepFailsOnAttempt(rounds, k) && rounds[k].sleep.kind == JavaError
    ensures r.outcome != Raised(Wrapped(JavaError))
    ensures r.after == t.(maxBackoff := Bound(|r.naps|))
  {
    var a := Retry(ObtainLock, t, rounds);
    var outcome :=
      match a.exit
      case Succeeded => Returned
      case SleepThrew(JavaError) => ErrorEscaped
      case SleepThrew(kind) => Raised(Wrapped(kind))
      case Exhausted => Raised(TimedOut(t.lockId, t.key));
    ExitsExclusive(ObtainLock, t, rounds);
    Run(outcome, a.calls, a.naps, t.(maxBackoff := Bound(|a.naps|)))
  }

  /**
   `release`: stops at the first success, gives up silently after `Tries`
   refusals, ends quietly when a sleep throws a checked exception, wraps
   a runtime exception and lets an `Error` through.
   */
  function Release(t: Template, rounds: seq<Round>): (r: Run)
    requires Tries <= |rounds|
    ensures r.outcome.Raised? <==>
              exists k: nat :: SleepFailsOnAttempt(rounds, k) && rounds[k].sleep.kind == Unchecked
    ensures r.outcome.Raised? ==> r.outcome.error == Wrapped(Unchecked)
    ensures r.outcome == ErrorEscaped <==>
              exists k: nat :: SleepFailsOnAttempt(rounds, k) && rounds[k].sleep.kind == JavaError
    ensures r.after == t.(maxBackoff := Bound(|r.naps|))
  {
    var a := Retry(ReleaseLock, t, rounds);
    var outcome :=
      match a.exit
      case SleepThrew(Unchecked) => Raised(Wrapped(Unchecked))
      case SleepThrew(JavaError) => ErrorEscaped
      case _ => Returned;
    ExitsExclusive(ReleaseLock, t, rounds);
    Run(outcome, a.calls, a.naps, t.(maxBackoff := Bound(|a.naps|)))
  }

  /** The script decides the exit: each way of ending rules out the others. */
  lemma ExitsExclusive(op: StoreOp, t: Template, rounds: seq<Round>)
    requires Tries <= |rounds|
    ensures var a := Retry(op, t, rounds); a.exit.Succeeded? <==> exists k: nat :: GrantedOnAttempt(rounds, k)
    ensures var a := Retry(op, t, rounds); a.exit.Exhausted? <==> AlwaysRefused(rounds)
    ensures var a := Retry(op, t, rounds);
      forall kind :: a.exit == SleepThrew(kind) <==>
        exists k: nat :: SleepFailsOnAttempt(rounds, k) && rounds[k].sleep.kind == kind
  {
  }

  /** A loop that stops at attempt k makes k + 1 store calls and ends the way round k says. */
  lemma RetryStopsAt(op: StoreOp, t: Template, rounds: seq<Round>, k: nat)
    requires Tries <= |rounds| && k < Tries
    requires RefusedAndSlept(rounds, k) && EndsLoop(rounds[k])
    ensures var a := Retry(op, t, rounds);
      && |a.calls| == k + 1
      && a.exit == (if rounds[k].granted then Succeeded else SleepThrew(rounds[k].sleep.kind))
  {
  }

  // ----- The loops as the source writes them -----

  /**
   `acquire` as a `for` loop with an `acquired` flag, a `break` on success
   and two `catch` blocks that wrap what a sleep throws; it computes `Acquire`.
   */
  method AcquireLoop(t: Template, rounds: seq<Round>) returns (r: Run)
    requires Tries <= |rounds|
    ensures r == Acquire(t, rounds)
  {
    var calls: seq<StoreCall> := [];
    var naps: seq<Nap> := [];
    var acquired := false;
    var state := t.(maxBackoff := InitialMaxBackoff);
    var i := 0;
    while i < Tries
      invariant 0 <= i <= Tries
      invariant !acquired
      invariant RefusedAndSlept(rounds, i)
      invariant calls == Calls(ObtainLock, t, i)
      invariant naps == Naps(rounds, i)
      invariant state == t.(maxBackoff := Bound(i))
    {
      calls := calls + [StoreCall(ObtainLock, t.lockId, t.key, Modification)];
      assert calls == Calls(ObtainLock, t, i + 1);
      if rounds[i].granted {
        acquired := true;
        RetryStopsAt(ObtainLock, t, rounds, i);
        break;
      }
      var backoff := NextBackoff(rounds[i].fraction, state.maxBackoff);
      naps := naps + [Nap(backoff, state.maxBackoff)];
      assert naps == Naps(rounds, i + 1);
      state := state.(maxBackoff := state.maxBackoff * 2);
      match rounds[i].sleep {
        case Throws(Unchecked) =>
          RetryStopsAt(ObtainLock, t, rounds, i);
          return Run(Raised(Wrapped(Unchecked)), calls, naps, state);
        case Throws(Checked) =>
          RetryStopsAt(ObtainLock, t, rounds, i);
          return Run(Raised(Wrapped(Checked)), calls, naps, state);
        case Throws(JavaError) =>
          RetryStopsAt(ObtainLock, t, rounds, i);
          return Run(ErrorEscaped, calls, naps, state);
        case Completes =>
      }
      i := i + 1;
    }
    if !acquired {
      return Run(Raised(TimedOut(t.lockId, t.key)), calls, naps, state);
    }
    return Run(Returned, calls, naps, state);
  }

  /**
   `release` as a `for` loop: `break` on success, `break` when a sleep
   throws a checked exception, a wrapped exception for a runtime one, and
   an `Error` passing both `catch` blocks; it computes `Release`.
   */
  method ReleaseLoop(t: Template, rounds: seq<Round>) returns (r: Run)
    requires Tries <= |rounds|
    ensures r == Release(t, rounds)
  {
    var calls: seq<StoreCall> := [];
    var naps: seq<Nap> := [];
    var state := t.(maxBackoff := InitialMaxBackoff);
    var i := 0;
    while i < Tries
      invariant 0 <= i <= Tries
      invariant RefusedAndSlept(rounds, i)
      invariant calls == Calls(ReleaseLock, t, i)
      invariant naps == Naps(rounds, i)
      invariant state == t.(maxBackoff := Bound(i))
    {
      calls := calls + [StoreCall(ReleaseLock, t.lockId, t.key, Modification)];
      assert calls == Calls(ReleaseLock, t, i + 1);
      if rounds[i].granted {
        RetryStopsAt(ReleaseLock, t, rounds, i);
        break;
      }
      var backoff := NextBackoff(rounds[i].fraction, state.maxBackoff);
      naps := naps + [Nap(backoff, state.maxBackoff)];
      assert naps == Naps(rounds, i + 1);
      state := state.(maxBackoff := state.maxBackoff * 2);
      match rounds[i].sleep {
        case Throws(Unchecked) =>
          RetryStopsAt(ReleaseLock, t, rounds, i);
          return Run(Raised(Wrapped(Unchecked)), calls, naps, state);
        case Throws(JavaError) =>
          RetryStopsAt(ReleaseLock, t, rounds, i);
          return Run(ErrorEscaped, calls, naps, state);
        case Throws(Checked) =>
          RetryStopsAt(ReleaseLock, t, rounds, i);
          break;
        case Completes =>
      }
      i := i + 1;
    }
    return Run(Returned, calls, naps, state);
  }

  // ----- What a script of store answers and sleeps leads to -----

  /** The store first granting on attempt k: `acquire` returns after k + 1 calls and k sleeps. */
  lemma AcquireGrantedOnAttempt(t: Template, rounds: seq<Round>, k: nat)
    requires Tries <= |rounds| && GrantedOnAttempt(rounds, k)
    ensures var r := Acquire(t, rounds);
      r.outcome == Returned && |r.calls| == k + 1 && |r.naps| == k
  {
  }

  /**
   Four refusals: `acquire` makes exactly four calls and four sleeps drawn
   under 250, 500, 1000 and 2000 ms, then times out naming its lock id and key.
   */
  lemma AcquireTimesOut(t: Template, rounds: seq<Round>)
    requires AlwaysRefused(rounds)
    ensures var r := Acquire(t, rounds);
      && r.outcome == Raised(TimedOut(t.lockId, t.key))
      && |r.calls| == 4 && |r.naps| == 4
      && r.naps[0].bound == 250 && r.naps[1].bound == 500
      && r.naps[2].bound == 1000 && r.naps[3].bound == 2000
      && r.after.maxBackoff == 4000
  {
  }

  /**
   A sleep throwing after refusal k: `acquire` stops there, wraps a checked
   or runtime exception and lets an `Error` through.
   */
  lemma AcquireSleepFails(t: Template, rounds: seq<Round>, k: nat)
    requires Tries <= |rounds| && SleepFailsOnAttempt(rounds, k)
    ensures var r := Acquire(t, rounds);
      && |r.calls| == k + 1 && |r.naps| == k + 1
      && r.outcome == (if rounds[k].sleep.kind == JavaError then ErrorEscaped
                       else Raised(Wrapped(rounds[k].sleep.kind)))
  {
  }

  /** `release` stops at the store's first yes. */
  lemma ReleaseGrantedOnAttempt(t: Template, rounds: seq<Round>, k: nat)
    requires Tries <= |rounds| && GrantedOnAttempt(rounds, k)
    ensures var r := Release(t, rounds);
      r.outcome == Returned && |r.calls| == k + 1 && |r.naps| == k
  {
  }

  /** Four refusals: `release` makes four calls and four sleeps and returns normally. */
  lemma ReleaseGivesUp(t: Template, rounds: seq<Round>)
    requires AlwaysRefused(rounds)
    ensures var r := Release(t, rounds);
      r.outcome == Returned && |r.calls| == 4 && |r.naps| == 4
  {
  }

  /**
   A sleep throwing after refusal k ends `release` there: normally for a
   checked exception, with a wrapped exception for a runtime one, and with
   the `Error` itself for an `Error`.
   */
  lemma ReleaseSleepFails(t: Template, rounds: seq<Round>, k: nat)
    requires Tries <= |rounds| && SleepFailsOnAttempt(rounds, k)
    ensures var r := Release(t, rounds);
      && |r.calls| == k + 1 && |r.naps| == k + 1
      && r.outcome == (match rounds[k].sleep.kind
                       case Checked => Returned
                       case Unchecked => Raised(Wrapped(Unchecked))
                       case JavaError => ErrorEscaped)
  {
  }

  /**
   Whatever backoff an earlier call left in the template, the next call
   behaves the same: the stored value is overwritten before it is read.
   */
  lemma StaleBackoffIgnored(t: Template, m: nat, rounds: seq<Round>)
    requires Tries <= |rounds|
    ensures Acquire(t.(maxBackoff := m), rounds) == Acquire(t, rounds)
    ensures Release(t.(maxBackoff := m), rounds) == Release(t, rounds)
  {
  }

  lemma BoundValues()
    ensures Bound(0) == 250 && Bound(1) == 500 && Bound(2) == 1000 && Bound(3) == 2000 && Bound(4) == 4000
  {
  }

  // ----- The sleep budget -----

  function SumMillis(naps: seq<Nap>): nat {
    if |naps| == 0 then 0 else SumMillis(naps[..|naps| - 1]) + naps[|naps| - 1].millis
  }

  /** The sum of the first n backoff bounds. */
  function BoundTotal(n: nat): nat {
    if n == 0 then 0 else BoundTotal(n - 1) + Bound(n - 1)
  }

  /** 250 + 500 + ... doubles to 250 * (2^n - 1); four bounds make the designed 3750. */
  lemma {:induction false} BoundTotalClosedForm(n: nat)
    ensures BoundTotal(n) == InitialMaxBackoff * (Pow(2, n) - 1)
  {
    if n > 0 {
      BoundTotalClosedForm(n - 1);
    }
  }

  /** Each sleep below its bound keeps the total at least one ms per sleep below the bounds' sum. */
  lemma {:induction false} NapsWithinBoundTotal(naps: seq<Nap>)
    requires forall i :: 0 <= i < |naps| ==> naps[i].millis < Bound(i)
    ensures SumMillis(naps) + |naps| <= BoundTotal(|naps|)
  {
    if |naps| > 0 {
      NapsWithinBoundTotal(naps[..|naps| - 1]);
    }
  }

  lemma {:induction false} BoundTotalMonotone(m: nat, n: nat)
    requires m <= n
    ensures BoundTotal(m) <= BoundTotal(n)
  {
    if m < n {
      BoundTotalMonotone(m, n - 1);
    }
  }

  /** One `acquire` or `release` sleeps less than 3750 ms in total, whatever the script. */
  lemma SleepBudget(t: Template, rounds: seq<Round>)
    requires Tries <= |rounds|
    ensures SumMillis(Acquire(t, rounds).naps) < 3750
    ensures SumMillis(Release(t, rounds).naps) < 3750
  {
    BoundTotalClosedForm(Tries);
    BoundValues();
    var a, r := Acquire(t, rounds).naps, Release(t, rounds).naps;
    NapsWithinBoundTotal(a);
    NapsWithinBoundTotal(r);
    BoundTotalMonotone(|a|, Tries);
    BoundTotalMonotone(|r|, Tries);
  }

  // ----- One template over its lifetime -----

  /**
   A constructed template acquiring and then releasing presents the lock id
   it was built with and the key derived from its identifiers on every store
   call, and the release draws its backoff from 250 ms again.
   */
  lemma TemplateKeepsIdentity(formId: Nullable<string>, instanceId: Nullable<string>, lockId: string,
                              acquireRounds: seq<Round>, releaseRounds: seq<Round>)
    requires instanceId.Ref? && instanceId.value != ""
    requires Tries <= |acquireRounds| && Tries <= |releaseRounds|
    ensures var t := NewTemplate(formId, instanceId, lockId).template;
      var a := Acquire(t, acquireRounds);
      var r := Release(a.after, releaseRounds);
      && (forall c :: c in a.calls ==>
            c == StoreCall(ObtainLock, lockId, DeriveKey(formId, instanceId.value), Modification))
      && (forall c :: c in r.calls ==>
            c == StoreCall(ReleaseLock, lockId, DeriveKey(formId, instanceId.value), Modification))
      && (forall i :: 0 <= i < |r.naps| ==> r.naps[i].bound == Bound(i))
  {
  }
}
